=== FILE: README.md ===
# Sentiment form controller — Dafny model

A model of `SentimentAnalyzer`, the browser controller of a sentiment
analysis page (`frontend/sentiment.js`). The controller trims the text the
user typed, rejects it when empty or shorter than five characters, otherwise
turns the loading indicator on and POSTs `{text}` to the prediction
endpoint, then shows either a result card (the prediction, a positive or
negative icon and a truncated echo of the text) or an error card, and always
turns loading off again. A live counter under the text box shows
`length / 1000` and turns on `warning` and `limit` styles.

The DOM and the network are taken out. What the network returns is an input
value (`Analysis.Reply`: the fetch promise rejects, or a response with its
`ok` flag, status and JSON body arrives). The page is an immutable record
(`Controller.View`), and each DOM event is a pure transition on it.

Modules, one per concern:

- `Wrappers` — `Option` and `Result`.
- `JsString` — the string primitives used: `trim` (over the ECMAScript
  whitespace and line-terminator set), `toLowerCase`, `includes`.
- `Decimal` — how a number is printed inside a template literal, and how
  it is read back.
- `CharCounter` — `updateCharCounter`.
- `Analysis` — `analyzeSentiment`'s outcome classification and the
  message fallback of `handleSubmit`, with a reference classification into
  the error kinds the controller distinguishes.
- `Rendering` — the decisions of `showResult`/`showError`: positive or not,
  icon, class, echo truncation.
- `Controller` — validation, `setLoading`, the whole `handleSubmit` run as
  a list of effects, the event transition function, the lifecycle phases
  (Idle, Loading, Success, Error) and the invariant every reachable view
  keeps.

Details of the code the model keeps:

- A transport failure gives the connect message only when it is a
  `TypeError` whose message mentions `fetch`. Any other rejection passes its
  own message through.
- A non-OK response with status 0 or no status gives a second, different
  connect message, which names the address.
- The server's `error` field is used only when it is truthy. An empty
  string falls back to `Server error (<status>)`.
- An OK response counts as malformed when `prediction` is missing and also
  when it is the empty string.

## Model

| member | source | states |
|---|---|---|
| JsString.Trim | frontend/sentiment.js:50 | the trimmed text is a contiguous piece of the input, everything around it is whitespace, and it neither starts nor ends with whitespace |
| JsString.TrimUnique | frontend/sentiment.js:50 | any string meeting that description is the one `Trim` returns, so `Trim` is exactly the whitespace-stripping of the input |
| JsString.TrimIdempotent | frontend/sentiment.js:50 | trimming the trimmed text changes nothing, so the text sent is itself trimmed |
| JsString.TrimEmptyIffBlank | frontend/sentiment.js:50-55 | the trimmed text is empty exactly when every character of the input is whitespace |
| Decimal.NatToString | frontend/sentiment.js:89 | a number prints as a non-empty string of digits with no leading zero unless the number is zero |
| Decimal.ParseNatToString | frontend/sentiment.js:89 | reading the printed digits gives the number back |
| Decimal.NatToStringInjective | frontend/sentiment.js:89 | different numbers print differently |
| CharCounter.CounterFor | frontend/sentiment.js:23-36 | `warning` is on exactly when the length exceeds 900, `limit` exactly when it reaches 1000, and `limit` implies `warning` |
| CharCounter.CounterReadsBack | frontend/sentiment.js:24-27 | the counter text is the length's numeral followed by " / 1000", and its numeral reads back as the length |
| CharCounter.CounterTextInjective | frontend/sentiment.js:27 | two different lengths never show the same counter text |
| Analysis.Exchange | frontend/sentiment.js:75-105 | only an OK response with a non-empty prediction gets past the checks; every error the code raises itself is a plain `Error`, and any other failure is the rejection of fetch or the failure to read an OK response's body |
| Analysis.Rethrow | frontend/sentiment.js:106-111 | a `TypeError` whose message mentions "fetch" becomes the connect message; every other error, including any other `TypeError`, passes unchanged |
| Analysis.AnalyzeSentiment | frontend/sentiment.js:74-112 | a prediction is returned exactly for an OK response with a non-empty prediction, and it is that prediction; a non-OK response without a status gives the connect message; any other non-OK response gives the server's non-empty `error` field or `Server error (<status>)`; an OK response without a prediction gives "Invalid response from server"; a fetch `TypeError` gives the connect message; any other rejection of fetch passes unchanged; an OK response whose body cannot be read throws what reading threw, after the same rewriting |
| Analysis.UserMessage | frontend/sentiment.js:68 | the shown message is the error's own message when non-empty and the generic "Failed to analyze sentiment" text otherwise, so it is never empty |
| Analysis.AnalyzeAgreesWithClassify | frontend/sentiment.js:66-68 | for every reply, the code's nested try/catch agrees with a flat classification into unreachable, no status, server error, malformed response and other exceptions: the same replies succeed with the same prediction, and each failure shows the message of its kind |
| Analysis.ServerDetailShownVerbatim | frontend/sentiment.js:89-96 | a non-empty `error` text from a non-OK response reaches the user unchanged, even when it mentions fetch |
| Analysis.ServerErrorMessageInjective | frontend/sentiment.js:89 | without an `error` field, different statuses give different messages |
| Rendering.Echo | frontend/sentiment.js:132-134 | the echo is the text when at most 100 characters long; otherwise it is the text's first 100 characters followed by "...", so it is never longer than 103 |
| Rendering.EchoUnchangedIff | frontend/sentiment.js:132-134 | the echo equals the text exactly when the text has at most 100 characters, or is 103 characters ending in "..." |
| Rendering.Icon | frontend/sentiment.js:127-128 | a result card shows the positive icon exactly when its prediction is positive and the negative icon otherwise; exactly the error cards show the warning icon |
| Rendering.ClassName | frontend/sentiment.js:129 | a result card is styled `result positive` exactly when its prediction is positive and `result negative` otherwise; exactly the error cards are styled `result error` |
| Rendering.Heading | frontend/sentiment.js:138 | a result card's heading is "Sentiment: " followed by the unmodified prediction; an error card's heading is "Error" |
| Rendering.IsPositiveIffCaseVariant | frontend/sentiment.js:127 | a prediction is classed positive exactly when it is "positive" spelled with any mix of upper- and lower-case letters |
| Rendering.ServerLabels | frontend/sentiment.js:127-129 | "Positive", "POSITIVE" and "positive" are classed positive; "Negative" and "positive " are not |
| Rendering.IconMatchesClass | frontend/sentiment.js:127-129 | a result card shows the positive icon exactly when it is styled positive, which is exactly when its prediction is positive; only error cards show the warning icon |
| Controller.Validate | frontend/sentiment.js:50-60 | the text is accepted exactly when its trimmed form has at least 5 characters, and then the trimmed form is what is sent; the empty-text message is given exactly for all-whitespace input, and the too-short message exactly for 1 to 4 trimmed characters |
| Controller.SetLoading | frontend/sentiment.js:114-124 | the button is disabled, the spinner shown and the button label hidden exactly when loading is on |
| Controller.Begin | frontend/sentiment.js:47-64 | a rejected text shows its message and changes nothing else; an accepted text turns loading on, then sends the trimmed text, which becomes the request in flight, and changes nothing else |
| Controller.Finish | frontend/sentiment.js:64-71 | with a request in flight, the card is shown first and loading turned off last, whatever the reply; the card is the prediction with the echo of the sent text, or the error's message with the generic fallback; with nothing in flight nothing happens |
| Controller.HandleSubmit | frontend/sentiment.js:47-72 | the text box and counter are never changed; a rejected text renders its message once and changes nothing else; one request is sent exactly when the trimmed text has at least 5 characters, and it carries the trimmed text; a rejected text never turns loading on and shows the matching message; an accepted text turns loading on, then sends the request, then renders the card, and always ends with loading off and the button enabled; a result is shown exactly when analyzeSentiment returns a prediction, with the prediction unmodified and the trimmed text echoed; otherwise the error card shows the error's message, or the generic text when that is empty; no error card has an empty message |
| Controller.Step | frontend/sentiment.js:17-21 | typing replaces the text, updates the counter, clears the card and leaves a request in flight alone; a submit through a disabled button and a reply with nothing in flight change nothing; a submit through an enabled button shows the rejection message of a rejected text and changes nothing else, or turns loading on and puts the trimmed text in flight, changing nothing else; neither a submit nor a reply edits the box or the counter; a reply never leaves a request in flight |
| Controller.InitialInv | frontend/sentiment.js:3-21 | the page starts in the invariant, in the Idle phase |
| Controller.StepPreservesInv | frontend/sentiment.js:17-21 | typing, submitting and a reply each keep the invariant, and each moves the phase along the lifecycle, so Success is entered only from Loading |
| Controller.ReplayPreservesInv | frontend/sentiment.js:17-21 | every view reached by any sequence of events keeps the invariant: the counter matches the box, and loading is shown exactly while a request is in flight |
| Controller.SingleRequestInFlight | frontend/sentiment.js:114-118 | while a request is in flight, the submit button is disabled, so a submit sends nothing and changes nothing |
| Controller.ReplyEndsLoading | frontend/sentiment.js:62-71 | the reply to the request in flight always ends loading; it ends in Success exactly when analyzeSentiment returns a prediction; the card then shows that prediction and echoes the text that was sent, even if the box has changed since; a failed reply shows the error's message, or the generic text when that is empty |
| Controller.HandleSubmitIsSubmitThenReply | frontend/sentiment.js:62-65 | the single-run handler ends in the same view as a submit event followed by the reply event |

## Left out

- Markup and styling: the `innerHTML` of the cards and the class-list edits are reduced to the `Card` and `Counter` values they show.
- Timers: the 100 ms delay before a card gets `show` and the 200 ms delay in `clearResult` are not modelled. Typing clears the card at once. So a card shown less than 200 ms after a keystroke, which the pending timer would wipe, is not captured.
- The network: `fetch`, the request headers, the endpoint URL and `JSON.stringify` are replaced by the `Reply` input. A request is recorded by the `text` field it carries.
- JSON parsing: `response.json()` is the `Body` input. Its `error` and `prediction` fields are absent or strings. A body that does not parse is `Unreadable` with the parser's error. A `null` body is `Unreadable` too, with the `TypeError` that reading a field of `null` throws. Any other value without those fields (a number, string, boolean or array) reads as `Json(None, None)`, because its fields are simply undefined.
- Non-string field values: a numeric or object `error` field, or a non-string `prediction`, are not modelled. A non-string `prediction` would make `toLowerCase` throw inside `showResult`.
- `console.error` logging is a diagnostic side effect.
- String encoding: lengths count Unicode scalar values, not UTF-16 code units, which is what the code measures. So characters outside the Basic Multilingual Plane count once in the model and twice in the code. This affects the 5-character minimum ("😀😀😀" is 6 code units, so the code accepts it, but the model rejects it as too short). It also affects the counter's length and its two thresholds, the 100-character echo threshold, and `substring(0, 100)`, which can split a surrogate pair.
- JsString.Lower: lower-cases only ASCII letters, not the whole Unicode mapping of `toLowerCase`. The two agree on the one comparison made (with "positive"): no other character lowers to one of its letters, and U+0130 lowers to two characters.
- Controller.Initial: the starting counter text comes from the page markup, which is not part of this model. It is taken to be `0 / 1000`.
- Controller.Step: a submit while the button is disabled is dropped, because browsers do not submit a form through a disabled submit button. The controller itself does not check for this.
- The prediction server (app.py) is not part of this model: routing, CORS, model loading and text cleaning sit on opaque libraries and a trained classifier. It only ever answers "Positive" or "Negative", but the client is modelled over any prediction string.

=== FILE: analysis.dfy ===
/** analyzeSentiment: how the outcome of the one POST to the prediction
    endpoint becomes either a prediction label or a thrown error, and how
    handleSubmit turns a thrown error into the message the user sees. */
module Analysis {
  import opened Wrappers
  import opened JsString
  import opened Decimal

  /** A JavaScript exception as far as the controller inspects it. */
  datatype Failure = Failure(name: string, message: string)

  /** What `response.json()` yields: it throws, or it gives an object whose
      `error` and `prediction` fields are each absent or a string. */
  datatype Body = Unreadable(failure: Failure) | Json(error: Option<string>, prediction: Option<string>)

  /** What `fetch` produces: its promise rejects, or a response arrives
      with its `ok` flag, its `status` (absent when undefined) and a body. */
  datatype Reply =
    | Rejected(failure: Failure)
    | Response(ok: bool, status: Option<nat>, body: Body)

  const ConnectMessage: string :=
    "Unable to connect to the sentiment analysis service. Please ensure the Flask app is running on http://localhost:5000"
  const FetchFailedMessage: string :=
    "Unable to connect to the sentiment analysis service. Please ensure the Flask app is running and accessible."
  const InvalidResponseMessage: string := "Invalid response from server"
  const FallbackMessage: string := "Failed to analyze sentiment. Please try again."

  /** The default message for a non-OK response: "Server error (<status>)". */
  function ServerErrorMessage(status: nat): string {
    "Server error (" + NatToString(status) + ")"
  }

  /** `new Error(message)`. */
  function Thrown(message: string): Failure {
    Failure("Error", message)
  }

  /** A JSON field used in a boolean context: present and not the empty string. */
  predicate Truthy(field: Option<string>) {
    field.Some? && field.value != ""
  }

  /** The body of the `try` in analyzeSentiment: fetch, check the status,
      read the JSON and check for a prediction. */
  function Exchange(reply: Reply): (r: Result<string, Failure>)
    // only an OK response with a non-empty prediction gets past the checks
    ensures r.Ok? <==> reply.Response? && reply.ok && reply.body.Json? && Truthy(reply.body.prediction)
    // every error the code raises itself is a plain Error; anything else is
    // the rejection of fetch or the failure to read an OK response's body
    ensures r.Err? && r.error.name != "Error" ==>
              || (reply.Rejected? && r.error == reply.failure)
              || (reply.Response? && reply.ok && reply.body.Unreadable? && r.error == reply.body.failure)
  {
    match reply
    case Rejected(f) => Err(f)
    case Response(ok, status, body) =>
      if !ok then
        if status.None? || status.value == 0 then Err(Thrown(ConnectMessage))
        else if body.Json? && Truthy(body.error) then Err(Thrown(body.error.value))
        else Err(Thrown(ServerErrorMessage(status.value)))
      else
        match body
        case Unreadable(f) => Err(f)
        case Json(_, prediction) =>
          if Truthy(prediction) then Ok(prediction.value) else Err(Thrown(InvalidResponseMessage))
  }

  /** The `catch` in analyzeSentiment: a TypeError that mentions fetch is
      replaced by the connect message, anything else passes unchanged. */
  function Rethrow(f: Failure): (g: Failure)
    ensures f.name == "TypeError" && Contains(f.message, "fetch") ==> g == Thrown(FetchFailedMessage)
    ensures !(f.name == "TypeError" && Contains(f.message, "fetch")) ==> g == f
  {
    if f.name == "TypeError" && Contains(f.message, "fetch") then Thrown(FetchFailedMessage) else f
  }

  /** analyzeSentiment: the prediction label, or the error it throws. */
  function AnalyzeSentiment(reply: Reply): (r: Result<string, Failure>)
    // a prediction comes only from an OK response with a non-empty one
    ensures r.Ok? <==> reply.Response? && reply.ok && reply.body.Json? && Truthy(reply.body.prediction)
    ensures r.Ok? ==> r.value == reply.body.prediction.value && r.value != ""
    // a non-OK response without a status is a connection failure
    ensures reply.Response? && !reply.ok && (reply.status.None? || reply.status == Some(0))
            ==> r == Err(Thrown(ConnectMessage))
    // any other non-OK response reports the server's error field, else its status
    ensures reply.Response? && !reply.ok && reply.status.Some? && reply.status.value != 0
            ==> r == Err(Thrown(if reply.body.Json? && Truthy(reply.body.error)
                                then reply.body.error.value
                                else ServerErrorMessage(reply.status.value)))
    // an OK response with a readable body but no prediction is invalid
    ensures reply.Response? && reply.ok && reply.body.Json? && !Truthy(reply.body.prediction)
            ==> r == Err(Thrown(InvalidResponseMessage))
    // a fetch TypeError becomes the connect message
    ensures reply.Rejected? && reply.failure.name == "TypeError" && Contains(reply.failure.message, "fetch")
            ==> r == Err(Thrown(FetchFailedMessage))
    // any other rejection of fetch passes through unchanged
    ensures reply.Rejected? && !(reply.failure.name == "TypeError" && Contains(reply.failure.message, "fetch"))
            ==> r == Err(reply.failure)
    // an OK response whose body cannot be read throws what reading threw,
    // subject to the same rewriting of fetch TypeErrors
    ensures reply.Response? && reply.ok && reply.body.Unreadable? ==> r == Err(Rethrow(reply.body.failure))
  {
    match Exchange(reply)
    case Ok(prediction) => Ok(prediction)
    case Err(f) => Err(Rethrow(f))
  }

  /** `error.message || 'Failed to analyze sentiment. Please try again.'`:
      the message of the error, or the generic text when it is empty. */
  function UserMessage(f: Failure): (m: string)
    ensures m != ""
    ensures f.message != "" ==> m == f.message
    ensures f.message == "" ==> m == FallbackMessage
  {
    if f.message != "" then f.message else FallbackMessage
  }

  /** The error kinds a submission can end in once a request was made. */
  datatype ErrorKind =
    | Unreachable                          // fetch failed with a TypeError about fetching
    | NoStatus                             // a non-OK response whose status is 0 or absent
    | ServerError(status: nat, detail: Option<string>)  // a non-OK response
    | MalformedResponse                    // an OK response without a prediction
    | Foreign(failure: Failure)            // any other exception, passed through

  /** Classification of a reply, read off the kinds of failure the
      controller distinguishes, independent of how the code nests its
      `try` blocks. */
  function Classify(reply: Reply): Result<string, ErrorKind> {
    if reply.Rejected? then
      if reply.failure.name == "TypeError" && Contains(reply.failure.message, "fetch") then Err(Unreachable)
      else Err(Foreign(reply.failure))
    else if !reply.ok then
      if reply.status.None? || reply.status.value == 0 then Err(NoStatus)
      else Err(ServerError(reply.status.value,
                           if reply.body.Json? && Truthy(reply.body.error) then reply.body.error else None))
    else if reply.body.Unreadable? then
      if reply.body.failure.name == "TypeError" && Contains(reply.body.failure.message, "fetch") then Err(Unreachable)
      else Err(Foreign(reply.body.failure))
    else if Truthy(reply.body.prediction) then Ok(reply.body.prediction.value)
    else Err(MalformedResponse)
  }

  /** The message shown for each kind of failure. */
  function Describe(kind: ErrorKind): string {
    match kind
    case Unreachable => FetchFailedMessage
    case NoStatus => ConnectMessage
    case ServerError(status, detail) => if detail.Some? then detail.value else ServerErrorMessage(status)
    case MalformedResponse => InvalidResponseMessage
    case Foreign(f) => UserMessage(f)
  }

  /** analyzeSentiment followed by handleSubmit's message fallback agrees
      with the classification: the same replies succeed with the same label,
      and every failing reply shows the message of its kind. */
  lemma AnalyzeAgreesWithClassify(reply: Reply)
    ensures AnalyzeSentiment(reply).Ok? <==> Classify(reply).Ok?
    ensures AnalyzeSentiment(reply).Ok? ==> AnalyzeSentiment(reply).value == Classify(reply).value
    ensures AnalyzeSentiment(reply).Err? ==>
              UserMessage(AnalyzeSentiment(reply).error) == Describe(Classify(reply).error)
  {
  }

  /** The error text a server sends with a non-OK status reaches the user
      verbatim, even when it mentions fetch: only TypeErrors are rewritten. */
  lemma ServerDetailShownVerbatim(status: nat, detail: string, prediction: Option<string>)
    requires status != 0 && detail != ""
    ensures AnalyzeSentiment(Response(false, Some(status), Json(Some(detail), prediction))) == Err(Thrown(detail))
    ensures UserMessage(Thrown(detail)) == detail
  {
  }

  /** Without an error field, two non-OK statuses give the same message only
      when they are the same status. */
  lemma ServerErrorMessageInjective(a: nat, b: nat)
    requires ServerErrorMessage(a) == ServerErrorMessage(b)
    ensures a == b
  {
    var pre := "Server error (";
    assert NatToString(a) == ServerErrorMessage(a)[|pre|..|ServerErrorMessage(a)| - 1];
    assert NatToString(b) == ServerErrorMessage(b)[|pre|..|ServerErrorMessage(b)| - 1];
    NatToStringInjective(a, b);
  }
}

=== FILE: char_counter.dfy ===
/** The live character counter under the text box (updateCharCounter). */
module CharCounter {
  import opened Decimal

  /** The counter's soft maximum. */
  const MaxLength: nat := 1000

  /** What the counter shows: its text and which of its two style classes
      are on. */
  datatype Counter = Counter(text: string, warning: bool, limit: bool)

  /** The counter for a text of `length` characters. The warning threshold
      is `MaxLength * 0.9`, which in double precision is exactly 900, so it
      is written here with integers as `10 * length > 9 * MaxLength`. */
  function CounterFor(length: nat): (c: Counter)
    ensures c.warning <==> length > 900
    ensures c.limit <==> length >= MaxLength
    ensures c.limit ==> c.warning
  {
    Counter(NatToString(length) + " / " + NatToString(MaxLength),
            10 * length > 9 * MaxLength,
            length >= MaxLength)
  }

  /** The counter text is the length's numeral followed by " / 1000", and
      reading its numeral gives the length back. */
  lemma CounterReadsBack(length: nat)
    ensures var t := CounterFor(length).text;
            var w := |NatToString(length)|;
            && w <= |t|
            && AllDigits(t[..w])
            && ParseDigits(t[..w]) == length
            && t[w..] == " / 1000"
  {
    var t := CounterFor(length).text;
    var w := |NatToString(length)|;
    assert t[..w] == NatToString(length);
    ParseNatToString(length);
    assert NatToString(MaxLength) == "1000" by {
      assert NatToString(1) == "1";
      assert NatToString(10) == "10";
      assert NatToString(100) == "100";
    }
  }

  /** Different lengths never show the same counter text. */
  lemma CounterTextInjective(a: nat, b: nat)
    requires CounterFor(a).text == CounterFor(b).text
    ensures a == b
  {
    CounterReadsBack(a);
    CounterReadsBack(b);
    // both numerals are the digits in front of the first blank of the text
    NatToStringInjectiveOnPrefix(CounterFor(a).text, a, b);
  }

  lemma NatToStringInjectiveOnPrefix(t: string, a: nat, b: nat)
    requires |NatToString(a)| <= |t| && t[..|NatToString(a)|] == NatToString(a)
    requires |NatToString(b)| <= |t| && t[..|NatToString(b)|] == NatToString(b)
    requires t[|NatToString(a)|..] == " / 1000" && t[|NatToString(b)|..] == " / 1000"
    ensures a == b
  {
    assert |NatToString(a)| == |NatToString(b)|;
    NatToStringInjective(a, b);
  }
}

=== FILE: controller.dfy ===
/** SentimentAnalyzer: the form controller. Its view is an immutable
    record; each DOM event is a transition on it, and handleSubmit is also
    given as one run that lists the side effects it performs in order. */
module Controller {
  import opened Wrappers
  import opened JsString
  import opened CharCounter
  import opened Analysis
  import opened Rendering

  /** Shortest trimmed text that is sent for analysis. */
  const MinLength: nat := 5
  const EmptyMessage: string := "Please enter some text to analyze."
  const TooShortMessage: string := "Please enter at least 5 characters for meaningful analysis."

  /** The checks at the top of handleSubmit: the trimmed text to send, or
      the message that rejects it. */
  function Validate(raw: string): (r: Result<string, string>)
    ensures r.Ok? <==> |Trim(raw)| >= MinLength
    ensures r.Ok? ==> r.value == Trim(raw)
    ensures r == Err(EmptyMessage) <==> forall k :: 0 <= k < |raw| ==> IsWhitespace(raw[k])
    ensures r == Err(TooShortMessage) <==> 0 < |Trim(raw)| < MinLength
  {
    var text := Trim(raw);
    if text == [] then Err(EmptyMessage)
    else if |text| < MinLength then Err(TooShortMessage)
    else Ok(text)
  }

  /** What setLoading touches: the submit button's `disabled` flag, the
      button label's opacity and the spinner's display style. */
  datatype Chrome = Chrome(buttonDisabled: bool, labelOpacity: string, spinnerDisplay: string)

  function SetLoading(on: bool): (c: Chrome)
    ensures c.buttonDisabled == on
    ensures c.spinnerDisplay == (if on then "block" else "none")
    ensures c.labelOpacity == (if on then "0" else "1")
  {
    if on then Chrome(true, "0", "block") else Chrome(false, "1", "none")
  }

  /** The result area: empty, or showing one card. */
  datatype Display = Blank | Showing(card: Card)

  /** Everything the controller reads or writes: the text box, the counter,
      the loading chrome, the text of the request in flight, and the result
      area. */
  datatype View = View(input: string, counter: Counter, chrome: Chrome,
                       pending: Option<string>, display: Display)

  /** The page as it loads: an empty box and nothing shown. */
  const Initial: View := View("", CounterFor(0), SetLoading(false), None, Blank)

  /** The visible side effects of a submission, in the order they happen. */
  datatype Effect = LoadingSet(on: bool) | Post(text: string) | Render(card: Card)

  /** A view together with the effects that produced it. */
  datatype Run = Run(view: View, effects: seq<Effect>)

  /** The `text` fields of the requests among `effects`, in order. */
  function Requests(effects: seq<Effect>): seq<string> {
    if |effects| == 0 then []
    else (if effects[0].Post? then [effects[0].text] else []) + Requests(effects[1..])
  }

  lemma {:induction false} RequestsAppend(a: seq<Effect>, b: seq<Effect>)
    ensures Requests(a + b) == Requests(a) + Requests(b)
    decreases |a|
  {
    if |a| == 0 {
      assert a + b == b;
    } else {
      assert (a + b)[1..] == a[1..] + b;
      RequestsAppend(a[1..], b);
    }
  }

  /** handleSubmit up to the `await`: validate, then either show the
      rejection or turn loading on and send the trimmed text. */
  function Begin(v: View): (r: Run)
    // a rejected text shows its message and nothing else changes
    ensures Validate(v.input).Err? ==>
              && r.view == v.(display := Showing(ErrorCard(Validate(v.input).error)))
              && r.effects == [Render(ErrorCard(Validate(v.input).error))]
    // an accepted text turns loading on, then sends the trimmed text, which
    // becomes the request in flight; the card shown so far stays
    ensures Validate(v.input).Ok? ==>
              && r.effects == [LoadingSet(true), Post(Trim(v.input))]
              && r.view == v.(chrome := SetLoading(true), pending := Some(Trim(v.input)))
  {
    match Validate(v.input)
    case Err(message) => Run(v.(display := Showing(ErrorCard(message))), [Render(ErrorCard(message))])
    case Ok(text) => Run(v.(chrome := SetLoading(true), pending := Some(text)), [LoadingSet(true), Post(text)])
  }

  /** The card for the request in flight once its reply is known. */
  function Outcome(text: string, reply: Reply): Card {
    match AnalyzeSentiment(reply)
    case Ok(prediction) => ResultCard(prediction, Echo(text))
    case Err(f) => ErrorCard(UserMessage(f))
  }

  /** handleSubmit after the `await`: show the result or the error, then
      the `finally` turns loading off. */
  function Finish(v: View, reply: Reply): (r: Run)
    // without a request in flight there is nothing to finish
    ensures v.pending.None? ==> r == Run(v, [])
    // otherwise the card is shown first and loading is turned off last,
    // whatever the reply was
    ensures v.pending.Some? ==>
              && |r.effects| == 2 && r.effects[0].Render? && r.effects[1] == LoadingSet(false)
              && r.view.display == Showing(r.effects[0].card)
              && !r.view.chrome.buttonDisabled && r.view.pending.None?
              && r.view.input == v.input
    ensures v.pending.Some? && AnalyzeSentiment(reply).Ok? ==>
              r.view.display == Showing(ResultCard(AnalyzeSentiment(reply).value, Echo(v.pending.value)))
    ensures v.pending.Some? && AnalyzeSentiment(reply).Err? ==>
              r.view.display == Showing(ErrorCard(UserMessage(AnalyzeSentiment(reply).error)))
  {
    match v.pending
    case None => Run(v, [])
    case Some(text) =>
      var card := Outcome(text, reply);
      Run(v.(chrome := SetLoading(false), pending := None, display := Showing(card)),
          [Render(card), LoadingSet(false)])
  }

  /** One whole submission of the text in the box, given the reply the
      request would get. */
  function HandleSubmit(v: View, reply: Reply): (r: Run)
    // a request goes out exactly when the trimmed text has at least 5
    // characters, and it carries the trimmed text
    ensures Requests(r.effects) == if |Trim(v.input)| >= MinLength then [Trim(v.input)] else []
    // the handler never edits the text box, so the counter stays as it was
    ensures r.view.input == v.input && r.view.counter == v.counter
    // a rejected text renders its message once and changes nothing else
    ensures Validate(v.input).Err? ==>
              && r.view == v.(display := Showing(ErrorCard(Validate(v.input).error)))
              && r.effects == [Render(ErrorCard(Validate(v.input).error))]
    // a rejected text never enters loading and shows why it was rejected
    ensures |Trim(v.input)| < MinLength ==>
              && (forall k :: 0 <= k < |r.effects| ==> !r.effects[k].LoadingSet?)
              && r.view.chrome == v.chrome
              && r.view.display == Showing(ErrorCard(if Trim(v.input) == [] then EmptyMessage else TooShortMessage))
    // an accepted text turns loading on first, then sends, and always ends
    // with loading off and the button enabled
    ensures |Trim(v.input)| >= MinLength ==>
              && |r.effects| == 4
              && r.effects[0] == LoadingSet(true)
              && r.effects[1] == Post(Trim(v.input))
              && r.view.display.Showing?
              && r.effects[2] == Render(r.view.display.card)
              && r.effects[3] == LoadingSet(false)
              && r.view.chrome == SetLoading(false)
              && !r.view.chrome.buttonDisabled
              && r.view.pending.None?
    // it shows a result exactly when analyzeSentiment returns a prediction,
    // echoing the trimmed text
    ensures |Trim(v.input)| >= MinLength ==>
              (r.view.display.Showing? && r.view.display.card.ResultCard?
               <==> AnalyzeSentiment(reply).Ok?)
    ensures |Trim(v.input)| >= MinLength && AnalyzeSentiment(reply).Ok? ==>
              r.view.display == Showing(ResultCard(AnalyzeSentiment(reply).value, Echo(Trim(v.input))))
    // otherwise it shows the error's message, or the generic text when that
    // message is empty
    ensures |Trim(v.input)| >= MinLength && AnalyzeSentiment(reply).Err? ==>
              r.view.display == Showing(ErrorCard(UserMessage(AnalyzeSentiment(reply).error)))
    // every error shown has a non-empty message
    ensures r.view.display.Showing? && r.view.display.card.ErrorCard? ==> r.view.display.card.message != ""
  {
    var started := Begin(v);
    if Validate(v.input).Err? then
      started
    else
      var finished := Finish(started.view, reply);
      RequestsAppend(started.effects, finished.effects);
      assert finished.effects[1..][1..] == [];
      assert Requests(finished.effects[1..]) == [];
      Run(finished.view, started.effects + finished.effects)
  }

  /** The DOM events the controller listens to: typing in the box, the
      form's submit, and the arrival of the pending request's reply. */
  datatype Event = Typed(value: string) | Submitted | Replied(reply: Reply)

  /** The controller's reaction to one event. Typing updates the counter and
      clears the card (the fade-out delay is not modelled). A browser does not
      submit a form whose submit button is disabled, so a submit while loading
      changes nothing. */
  function Step(v: View, e: Event): (w: View)
    // typing replaces the text, updates the counter, clears the card, and
    // leaves any request in flight alone
    ensures e.Typed? ==>
              && w.input == e.value && w.counter == CounterFor(|e.value|) && w.display == Blank
              && w.chrome == v.chrome && w.pending == v.pending
    // a submit through a disabled button, or a reply with nothing in flight,
    // changes nothing
    ensures e.Submitted? && v.chrome.buttonDisabled ==> w == v
    // an enabled submit shows the rejection of a rejected text, or turns
    // loading on and puts the trimmed text in flight
    ensures e.Submitted? && !v.chrome.buttonDisabled && Validate(v.input).Err? ==>
              w == v.(display := Showing(ErrorCard(Validate(v.input).error)))
    ensures e.Submitted? && !v.chrome.buttonDisabled && Validate(v.input).Ok? ==>
              w == v.(chrome := SetLoading(true), pending := Some(Trim(v.input)))
    ensures e.Replied? && v.pending.None? ==> w == v
    // a submit never edits the box, and a reply never starts a request
    ensures e.Submitted? ==> w.input == v.input && w.counter == v.counter
    ensures e.Replied? ==> w.pending.None?
    // a reply never edits the box either
    ensures e.Replied? ==> w.input == v.input && w.counter == v.counter
  {
    match e
    case Typed(value) => v.(input := value, counter := CounterFor(|value|), display := Blank)
    case Submitted => if v.chrome.buttonDisabled then v else Begin(v).view
    case Replied(reply) => Finish(v, reply).view
  }

  /** The views after each of `events` in turn. */
  function Replay(v: View, events: seq<Event>): View
    decreases |events|
  {
    if |events| == 0 then v else Replay(Step(v, events[0]), events[1..])
  }

  /** The lifecycle states of a submission. */
  datatype Phase = Idle | Loading | Success | Error

  function PhaseOf(v: View): Phase {
    if v.pending.Some? then Loading
    else match v.display
      case Blank => Idle
      case Showing(ResultCard(_, _)) => Success
      case Showing(ErrorCard(_)) => Error
  }

  /** The lifecycle: a submit leads to Loading or, when rejected, to Error;
      Loading ends in Success or Error; typing clears a shown card; and
      Success is entered only from Loading. */
  predicate Transition(p: Phase, q: Phase) {
    || p == q
    || (p == Loading && (q == Success || q == Error))
    || (p != Loading && (q == Loading || q == Error || q == Idle))
  }

  /** What holds of every view the controller reaches: the counter matches
      the box, the chrome shows loading exactly while a request is in flight,
      that request carries a trimmed text of at least 5 characters, and an
      error card never has an empty message. */
  ghost predicate Inv(v: View) {
    && v.counter == CounterFor(|v.input|)
    && v.chrome == SetLoading(v.pending.Some?)
    && (v.pending.Some? ==> |v.pending.value| >= MinLength && Trim(v.pending.value) == v.pending.value)
    && (v.display.Showing? && v.display.card.ErrorCard? ==> v.display.card.message != "")
  }

  lemma InitialInv()
    ensures Inv(Initial) && PhaseOf(Initial) == Idle
  {
  }

  /** Every event keeps the invariant and moves along the lifecycle. */
  lemma StepPreservesInv(v: View, e: Event)
    requires Inv(v)
    ensures Inv(Step(v, e))
    ensures Transition(PhaseOf(v), PhaseOf(Step(v, e)))
  {
  }

  /** Every view reached from the initial page by any sequence of events
      satisfies the invariant. */
  lemma {:induction false} ReplayPreservesInv(v: View, events: seq<Event>)
    requires Inv(v)
    ensures Inv(Replay(v, events))
    decreases |events|
  {
    if |events| > 0 {
      StepPreservesInv(v, events[0]);
      ReplayPreservesInv(Step(v, events[0]), events[1..]);
    }
  }

  /** At most one request is in flight: while one is, a submit neither sends
      another nor changes anything. */
  lemma SingleRequestInFlight(v: View)
    requires Inv(v) && v.pending.Some?
    ensures Step(v, Submitted) == v
  {
  }

  /** The reply to the request in flight always ends loading, in Success
      exactly when analyzeSentiment returns a prediction, and the card echoes
      the text that was sent, whatever the box holds by then. */
  lemma ReplyEndsLoading(v: View, reply: Reply)
    requires Inv(v) && v.pending.Some?
    ensures var w := Step(v, Replied(reply));
            && w.pending.None?
            && !w.chrome.buttonDisabled
            && (PhaseOf(w) == Success || PhaseOf(w) == Error)
            && (PhaseOf(w) == Success <==> AnalyzeSentiment(reply).Ok?)
            && (PhaseOf(w) == Success ==> w.display.card.echo == Echo(v.pending.value))
            && (AnalyzeSentiment(reply).Ok? ==>
                  w.display == Showing(ResultCard(AnalyzeSentiment(reply).value, Echo(v.pending.value))))
            && (AnalyzeSentiment(reply).Err? ==>
                  w.display == Showing(ErrorCard(UserMessage(AnalyzeSentiment(reply).error))))
  {
  }

  /** From a view with nothing in flight, the single-run handleSubmit ends
      where a submit event followed by the reply event ends. */
  lemma HandleSubmitIsSubmitThenReply(v: View, reply: Reply)
    requires Inv(v) && v.pending.None?
    ensures HandleSubmit(v, reply).view == Step(Step(v, Submitted), Replied(reply))
  {
  }
}

=== FILE: decimal.dfy ===
/** Decimal rendering of non-negative integers, as JavaScript's template
    literals print an integral number (`${status}`, `${length}`). */
module Decimal {

  predicate IsDigit(c: char) {
    '0' <= c <= '9'
  }

  predicate AllDigits(s: string) {
    forall k :: 0 <= k < |s| ==> IsDigit(s[k])
  }

  function DigitValue(c: char): (d: nat)
    requires IsDigit(c)
    ensures d < 10
  {
    c as int - '0' as int
  }

  function DigitChar(d: nat): (c: char)
    requires d < 10
    ensures IsDigit(c) && DigitValue(c) == d
  {
    ('0' as int + d) as char
  }

  /** The decimal numeral of `n`: digits only, never empty, and without a
      leading zero unless `n` is zero itself. */
  function NatToString(n: nat): (s: string)
    ensures |s| >= 1
    ensures AllDigits(s)
    ensures s[0] == '0' ==> n == 0
    decreases n
  {
    if n < 10 then [DigitChar(n)] else NatToString(n / 10) + [DigitChar(n % 10)]
  }

  /** Reads a numeral back, most significant digit first. */
  function ParseDigits(s: string): nat
    requires AllDigits(s)
  {
    if |s| == 0 then 0 else 10 * ParseDigits(s[..|s| - 1]) + DigitValue(s[|s| - 1])
  }

  /** Reading the numeral of `n` gives back `n`. */
  lemma {:induction false} ParseNatToString(n: nat)
    ensures ParseDigits(NatToString(n)) == n
    decreases n
  {
    var s := NatToString(n);
    if n >= 10 {
      ParseNatToString(n / 10);
      assert s[..|s| - 1] == NatToString(n / 10);
    }
  }

  /** Distinct numbers have distinct numerals. */
  lemma NatToStringInjective(a: nat, b: nat)
    requires NatToString(a) == NatToString(b)
    ensures a == b
  {
    ParseNatToString(a);
    ParseNatToString(b);
  }
}

=== FILE: js_string.dfy ===
/** The JavaScript string primitives the controller relies on:
    `String.prototype.trim`, `toLowerCase` and `includes`. Strings are
    sequences of characters; UTF-16 code units are not modelled. */
module JsString {

  /** The code points `trim` removes: the ECMAScript WhiteSpace set (tab,
      vertical tab, form feed, space, no-break space, zero-width no-break
      space and every other space separator) and the LineTerminator set. */
  predicate IsWhitespace(c: char) {
    || c == '\t' || c == '\n' || c == '\U{000B}' || c == '\U{000C}' || c == '\r'
    || c == ' ' || c == '\U{00A0}' || c == '\U{1680}'
    || ('\U{2000}' <= c <= '\U{200A}')
    || c == '\U{2028}' || c == '\U{2029}' || c == '\U{202F}' || c == '\U{205F}'
    || c == '\U{3000}' || c == '\U{FEFF}'
  }

  /** Number of whitespace characters at the front of `s`. */
  function LeadingBlanks(s: string): (n: nat)
    ensures n <= |s|
    ensures forall k :: 0 <= k < n ==> IsWhitespace(s[k])
    ensures n < |s| ==> !IsWhitespace(s[n])
  {
    if |s| == 0 || !IsWhitespace(s[0]) then 0 else 1 + LeadingBlanks(s[1..])
  }

  /** Number of whitespace characters at the back of `s`. */
  function TrailingBlanks(s: string): (n: nat)
    ensures n <= |s|
    ensures forall k :: |s| - n <= k < |s| ==> IsWhitespace(s[k])
    ensures n < |s| ==> !IsWhitespace(s[|s| - 1 - n])
  {
    if |s| == 0 || !IsWhitespace(s[|s| - 1]) then 0 else 1 + TrailingBlanks(s[..|s| - 1])
  }

  /** Everything in `s` outside `s[i..j]` is whitespace. */
  ghost predicate BlankOutside(s: string, i: nat, j: nat)
    requires i <= j <= |s|
  {
    && (forall k :: 0 <= k < i ==> IsWhitespace(s[k]))
    && (forall k :: j <= k < |s| ==> IsWhitespace(s[k]))
  }

  /** `t` neither starts nor ends with whitespace. */
  predicate Unpadded(t: string) {
    t == [] || (!IsWhitespace(t[0]) && !IsWhitespace(t[|t| - 1]))
  }

  /** `s[i..j]` is `s` with its leading and trailing whitespace removed. */
  ghost predicate TrimsAt(s: string, i: nat, j: nat) {
    i <= j <= |s| && BlankOutside(s, i, j) && Unpadded(s[i..j])
  }

  /** `t` is `s` with its leading and trailing whitespace removed: a
      contiguous piece of `s`, everything around it whitespace, and itself
      neither starting nor ending with whitespace. */
  ghost predicate IsTrimOf(s: string, t: string) {
    exists i: nat, j: nat :: TrimsAt(s, i, j) && t == s[i..j]
  }

  /** `String.prototype.trim`. */
  function Trim(s: string): (t: string)
    ensures IsTrimOf(s, t)
    ensures |t| <= |s|
  {
    var i := LeadingBlanks(s);
    var rest := s[i..];
    var j := i + |rest| - TrailingBlanks(rest);
    assert BlankOutside(s, i, j) by {
      forall k | j <= k < |s| ensures IsWhitespace(s[k]) {
        assert s[k] == rest[k - i];
      }
    }
    assert s[i..j] == rest[..|rest| - TrailingBlanks(rest)];
    assert i < j ==> !IsWhitespace(s[j - 1]) by {
      if i < j { assert s[j - 1] == rest[|rest| - 1 - TrailingBlanks(rest)]; }
    }
    assert TrimsAt(s, i, j);
    s[i..j]
  }

  /** Trim is the only function meeting `IsTrimOf`: any trimmed form of `s`
      is the one `Trim` computes. */
  lemma TrimUnique(s: string, t: string)
    requires IsTrimOf(s, t)
    ensures t == Trim(s)
  {
  }

  /** Trimming twice is trimming once. */
  lemma TrimIdempotent(s: string)
    ensures Trim(Trim(s)) == Trim(s)
  {
  }

  /** The trimmed text is empty exactly when the input is all whitespace. */
  lemma TrimEmptyIffBlank(s: string)
    ensures Trim(s) == [] <==> forall k :: 0 <= k < |s| ==> IsWhitespace(s[k])
  {
  }

  /** `toLowerCase` restricted to the ASCII letters. For the one comparison
      the controller makes (against "positive") this agrees with the full
      Unicode mapping: no other character lowers to one of those letters. */
  function LowerChar(c: char): char {
    if 'A' <= c <= 'Z' then (c as int + 32) as char else c
  }

  function Lower(s: string): (r: string)
    ensures |r| == |s|
    ensures forall k :: 0 <= k < |s| ==> r[k] == LowerChar(s[k])
  {
    seq(|s|, k requires 0 <= k < |s| => LowerChar(s[k]))
  }

  /** `String.prototype.includes`: `part` occurs somewhere in `s`. */
  predicate Contains(s: string, part: string) {
    exists i | 0 <= i <= |s| - |part| :: OccursAt(s, part, i)
  }

  predicate OccursAt(s: string, part: string, i: nat) {
    i + |part| <= |s| && s[i..i + |part|] == part
  }
}

=== FILE: rendering.dfy ===
/** showResult and showError: which card the result area shows, stripped
    of markup and animation. */
module Rendering {
  import opened JsString

  /** Longest input echoed in full under a result. */
  const EchoLimit: nat := 100
  const Ellipsis: string := "..."

  const PositiveIcon: string := "\U{1F60A}"
  const NegativeIcon: string := "\U{1F614}"
  const ErrorIcon: string := "\U{26A0}\U{FE0F}"

  /** A prediction counts as positive when, lower-cased, it reads "positive". */
  predicate IsPositive(prediction: string) {
    Lower(prediction) == "positive"
  }

  /** The echo of the submitted text: itself when short enough, otherwise
      its first 100 characters and an ellipsis. */
  function Echo(text: string): (e: string)
    ensures |e| <= EchoLimit + |Ellipsis|
    ensures |text| <= EchoLimit ==> e == text
    ensures |text| > EchoLimit ==> |e| == EchoLimit + |Ellipsis| && e[..EchoLimit] == text[..EchoLimit]
    ensures |text| > EchoLimit ==> e[EchoLimit..] == Ellipsis
  {
    if |text| > EchoLimit then text[..EchoLimit] + Ellipsis else text
  }

  /** The card in the result area: a prediction with the echoed input, or
      an error with its message. */
  datatype Card =
    | ResultCard(prediction: string, echo: string)
    | ErrorCard(message: string)

  /** The icon of the card. */
  function Icon(c: Card): (icon: string)
    ensures c.ResultCard? ==> (icon == PositiveIcon <==> IsPositive(c.prediction))
    ensures c.ResultCard? ==> (icon == NegativeIcon <==> !IsPositive(c.prediction))
    ensures c.ErrorCard? <==> icon == ErrorIcon
  {
    match c
    case ResultCard(p, _) => if IsPositive(p) then PositiveIcon else NegativeIcon
    case ErrorCard(_) => ErrorIcon
  }

  /** The class list of the result area once the card is shown. */
  function ClassName(c: Card): (name: string)
    ensures c.ResultCard? ==> (name == "result positive" <==> IsPositive(c.prediction))
    ensures c.ResultCard? ==> (name == "result negative" <==> !IsPositive(c.prediction))
    ensures c.ErrorCard? <==> name == "result error"
  {
    match c
    case ResultCard(p, _) => if IsPositive(p) then "result positive" else "result negative"
    case ErrorCard(_) => "result error"
  }

  /** The heading line of the card: the unmodified prediction, or "Error". */
  function Heading(c: Card): (h: string)
    ensures c.ResultCard? ==> |h| >= 11 && h[..11] == "Sentiment: " && h[11..] == c.prediction
    ensures c.ErrorCard? ==> h == "Error"
  {
    match c
    case ResultCard(p, _) => "Sentiment: " + p
    case ErrorCard(_) => "Error"
  }

  /** Lower-casing equals "positive" exactly for the eight-letter spellings
      of "positive" in any mix of upper and lower case. */
  lemma IsPositiveIffCaseVariant(p: string)
    ensures IsPositive(p) <==>
            |p| == 8 && forall k :: 0 <= k < 8 ==> p[k] == "positive"[k] || p[k] == "POSITIVE"[k]
  {
  }

  /** The labels the prediction server sends are classed as intended, and
      case does not matter. */
  lemma ServerLabels()
    ensures IsPositive("Positive") && IsPositive("POSITIVE") && IsPositive("positive")
    ensures !IsPositive("Negative") && !IsPositive("positive ")
  {
    IsPositiveIffCaseVariant("Positive");
    IsPositiveIffCaseVariant("POSITIVE");
    IsPositiveIffCaseVariant("positive");
    IsPositiveIffCaseVariant("Negative");
    assert "Negative"[0] != "positive"[0] && "Negative"[0] != "POSITIVE"[0];
    IsPositiveIffCaseVariant("positive ");
  }

  /** Icon and class always agree: a card is styled positive exactly when it
      shows the positive icon, and error cards carry the warning icon. */
  lemma IconMatchesClass(c: Card)
    ensures Icon(c) == PositiveIcon <==> ClassName(c) == "result positive"
    ensures Icon(c) == ErrorIcon <==> c.ErrorCard?
    ensures c.ResultCard? ==> (ClassName(c) == "result positive" <==> IsPositive(c.prediction))
  {
  }

  /** The echo is the text itself exactly when the text is at most 100
      characters long, or happens to be 103 characters ending in the
      ellipsis. */
  lemma EchoUnchangedIff(text: string)
    ensures Echo(text) == text <==>
            |text| <= EchoLimit || (|text| == EchoLimit + |Ellipsis| && text[EchoLimit..] == Ellipsis)
  {
  }
}

=== FILE: wrappers.dfy ===
/** Failure-carrying result types used throughout the model. */
module Wrappers {

  /** A value that may be absent: a JSON field that is missing, or a
      response status that is undefined. */
  datatype Option<+T> = None | Some(value: T)

  /** The outcome of an operation that either yields a value or throws. */
  datatype Result<+T, +E> = Ok(value: T) | Err(error: E)
}
